=== FILE: README.md ===
# Task collection engine — Dafny model

This project models the core of a small to-do tracker (`todo.py`): one
stored aggregate, a `next_id` counter plus an ordered list of tasks, and the
operations that load it, change it and save it back. The command-line and
web front ends only call these operations.

Every mutation in the source is load → transform → save over the whole
file. The queries `list_tasks` and `stats` only load. `edit_task` on an
unknown id returns before saving, and `clear_tasks` with an unknown mode
raises before saving, so neither writes the file. The model keeps the transform step as a pure function from the loaded
`Collection` to an `Outcome(after, value)`: `after` is the collection that
would be saved and `value` is what the caller gets back. The clock is a
parameter. `now` is the UTC timestamp that `now_iso()` would return, and
`today` is the `YYYY-MM-DD` date that `date.today()` would return. The data
file is a value, `Store.StoredFile`. `Store.Load` and `Store.Save` model the
normalisation and defaulting of `load_data` and the shape written by
`save_data`, but not the JSON text.

Modules, leaves first:

- `Wrappers`: `Option` (Python's `None`) and `Result`.
- `TextOrder`: Python's `<` on `str`. It is a strict total order.
- `Decimal`: `str(n)` and the signed-digits part of `int(s)`. For digit
  strings of the same width, text order is numeric order.
- `Dates`: for `YYYY-MM-DD` dates, text order is calendar order.
- `Seqs`: order-preserving `Filter` and `Map`, the model of list comprehensions.
- `Model`: `Task`, `Collection`, `Outcome`, the first-run empty collection,
  and the id invariant `Valid`. `Valid` means every id is below `nextId` and
  ids ascend in stored order, so ids are unique.
- `Records`: `Task.from_dict` (`FromDict`) and `asdict` (`ToRaw`).
- `Store`: `load_data` and `save_data`.
- `Mutations`: `add_task`, `mark_done`, `delete_tasks`, `edit_task`, `clear_tasks`.
- `Query`: `list_tasks`, with Python's stable sort modelled as insertion sort.
- `Statistics`: `stats`.
- `Scenarios`: multi-step walk-throughs of the operations.

## Model

| member | source | states |
|---|---|---|
| `TextOrder.LessTrichotomy` | todo.py:121-127 | any two stored strings compare one way or the other or are equal, so the sort keys are totally ordered |
| `TextOrder.LessTransitive` | todo.py:121-127 | string `<` is transitive |
| `TextOrder.LessConcat` | todo.py:195 | comparing two texts that share a split width compares the heads first and the tails only on a tie |
| `Decimal.FixedWidthLess` | todo.py:195 | for digit strings of one width, text `<` holds exactly when the numbers compare `<` |
| `Decimal.ParseShow` | todo.py:71 | `int(str(n)) == n` for every integer of at most 4300 digits, CPython's default conversion limit. A longer one is refused |
| `Decimal.ConvertibleRange` | todo.py:71 | the digit limit is the open range from `-10^4300` to `10^4300` |
| `Dates.IsoDateLessIsChronological` | todo.py:193-195 | for `YYYY-MM-DD` dates, the string comparison in the overdue check holds exactly when the first date is earlier in the calendar (year, then month, then day) |
| `Seqs.Filter` | todo.py:116-118 | a list comprehension with a condition keeps exactly the passing elements, and the result is a subsequence of the input, so their original order is kept |
| `Seqs.FilterMultiplicity` | todo.py:116-118 | the comprehension keeps every passing element as many times as it occurs in the input, and no failing element |
| `Seqs.FilterTwice` | todo.py:193-195 | filtering by one condition and then another, as the overdue count does with "not completed" and "due before today", is filtering once by both |
| `Seqs.FilterPartition` | todo.py:115-119 | filtering by a condition and by its negation splits a list into two parts whose multisets add up to the whole |
| `Model.Empty` | todo.py:81-82 | with no data file, the collection has `next_id = 1` and no tasks |
| `Model.FilterKeepsValid` | todo.py:148 | dropping any tasks keeps ids below the counter and ascending |
| `Records.FromDict` | todo.py:69-77 | a record becomes a task only when `id` is present and `int()`-coercible and `title` is present. Otherwise the error names the first check that fails: missing id, then bad id, then missing title. `completed` is the truthiness of the stored value, false if absent. A missing or falsy `created_at` becomes `now`. `due` and `completed_at` pass through |
| `Records.FromDictToRaw` | todo.py:91 | a task written with `asdict` reads back unchanged, unless its creation stamp is empty (that becomes `now`) |
| `Records.TextIdReadsAsNumber` | todo.py:71 | a record whose id is stored as the text of `n` is read with id `n` exactly when `n` has at most 4300 digits. Otherwise the record is rejected as a bad id |
| `Records.NormaliseIdempotent` | todo.py:91 | normalising an already normalised record changes nothing, whatever the clock reads |
| `Store.DecodeAll` | todo.py:91 | every record is normalised in order; the first record that fails aborts the load and is reported by position |
| `Store.Load` | todo.py:80-94 | an absent file is the empty collection. An unparseable file or a non-object root is fatal. A missing `next_id` defaults to 1 and missing `tasks` to none. Otherwise the load succeeds exactly when every record normalises, and a failed load reports the first record that does not, with its reason |
| `Store.Save` | todo.py:97-99 | the saved document holds the counter and every task's record, in order |
| `Store.LoadSave` | todo.py:80-99 | loading what was saved gives back the same collection when every task has a creation stamp |
| `Store.LoadSaveLoad` | todo.py:88-91 | a loaded collection is normalised, so saving it and loading again gives the same result |
| `Mutations.AddTask` | todo.py:102-109 | the new task gets id = old `next_id`. It is pending, has no completion stamp and is appended at the end. `next_id` goes up by one and earlier tasks are untouched |
| `Mutations.AddKeepsValid` | todo.py:104-107 | after an add, the new id is above every id already stored and the id invariant still holds |
| `Mutations.ClearAllRestartsIds` | todo.py:177-179 | after "clear all" the next add issues id 1 |
| `Mutations.MarkEach` | todo.py:135-139 | the single pass completes each selected task in place and collects exactly the completed ones, in stored order |
| `Mutations.MarkDone` | todo.py:131-141 | only tasks whose id is given and that are not completed change. They become completed with stamp `now` and are returned in stored order. Every other task, the ids and the counter stay as they were |
| `Mutations.MarkDoneKeepsValid` | todo.py:131-141 | mark done keeps the id invariant |
| `Mutations.MarkDoneIdempotent` | todo.py:136 | a second call with the same ids changes nothing and returns an empty list, so the first completion stamp stays |
| `Mutations.DeleteTasks` | todo.py:144-151 | the remaining tasks are exactly those whose id is not given, in their old order. The reported count `before - after` equals the number of tasks whose id is given. The counter is unchanged |
| `Mutations.DeleteKeepsValid` | todo.py:148 | delete keeps the id invariant |
| `Mutations.FirstWithId` | todo.py:156-157 | finds the first position holding the id, or reports that no task has it |
| `Mutations.EditTask` | todo.py:154-169 | if no task has the id, returns None and changes nothing. Otherwise only the first matching task changes, and its id and creation stamp stay. A given title replaces the title. `clear_due` empties the due date and wins over a given `due`. `undone` reopens a completed task and clears its stamp, and does nothing to a pending one |
| `Mutations.EditKeepsValid` | todo.py:154-169 | edit keeps the id invariant |
| `Mutations.EditIdempotent` | todo.py:158-166 | applying the same edit twice is the same as applying it once |
| `Mutations.ClearTasks` | todo.py:172-184 | "done" keeps exactly the pending tasks, in order, keeps the counter and reports the number of completed tasks. "all" leaves no tasks, sets `next_id = 1` and reports the old task count. Any other mode is an error |
| `Mutations.Revise` | todo.py:158-166 | an edit keeps the id and creation stamp. A given title replaces the title. `clear_due` empties the due date and wins over a given `due`. `undone` leaves the task pending and clears the stamp of a completed one. Without `undone`, or on a pending task, completion stays as it was |
| `Mutations.MutationsKeepIdsBelow` | todo.py:102-184 | without assuming ids are in creation order, add, mark done, edit, delete and both clear modes keep every stored id below the counter |
| `Mutations.ClearKeepsValid` | todo.py:172-184 | both clear modes keep the id invariant |
| `Mutations.CounterOnlyResetByClearAll` | todo.py:172-184 | add raises the counter by one; mark done, delete and edit keep it. Only "clear all" changes it in a clear |
| `Mutations.MutationsKeepStamps` | todo.py:131-169 | if a completion stamp is present exactly on completed tasks, every mutation keeps that true: add starts pending with no stamp, mark done sets both, `undone` clears both, and delete and clear only remove tasks |
| `Query.NotPrecedesTransitive` | todo.py:121-127 | the sort keys form a strict weak order, as Python's sort requires |
| `Query.Insert` | todo.py:121-127 | inserting into a sorted list keeps it sorted and adds exactly the one element |
| `Query.InsertStable` | todo.py:121-127 | the inserted task goes ahead of the tasks that share its key |
| `Query.Sort` | todo.py:121-127 | the sort returns a permutation of its input, ordered by the key, and tasks with equal keys keep their input order (Python's sort is stable, also with `reverse=True`) |
| `Query.ListTasks` | todo.py:112-128 | "pending"/"done" keep exactly the tasks with that status and "all" keeps every task. Pending and all are sorted by due date then creation stamp, and done by completion stamp, latest first. Any other kind returns the stored list as it is |
| `Query.ViewsPartition` | todo.py:115-119 | the pending and done views together hold every task of the all view exactly once, and no task is in both |
| `Query.DueViewOrder` | todo.py:121-125 | in the pending and all views a dated task comes before an undated one, and an earlier due date comes first. Tasks with the same due date are ordered by creation stamp |
| `Query.DoneViewOrder` | todo.py:126-127 | in the done view a later completion stamp comes first. Tasks with no stamp come last |
| `Query.KeyOf` | todo.py:120-127 | by due date: the first part of the key is "no due date", an absent or empty due date reads as `9999-12-31`, any other due date is itself, and the creation stamp breaks ties. By completion: the completion stamp alone, a missing one read as "" |
| `Statistics.Stats` | todo.py:187-197 | total is the task count and done counts the completed tasks. Pending is the number of tasks not completed, with pending + done = total. Overdue is the number of pending tasks whose due date is non-empty and before `today`, so it is at most pending, and it is zero exactly when no task is overdue |
| `Statistics.StatsAfterAdd` | todo.py:192-196 | after an add, total and pending are each one higher. Overdue is one higher exactly when the new due date is non-empty and before `today`, so a task without a due date, or due today, is not overdue |
| `Statistics.StatsAfterMarkDone` | todo.py:189-191 | mark done moves exactly the returned tasks from pending to done |
| `Scenarios.AddCompleteReopen` | todo.py:154-169 | add, mark done, then edit with `undone` on a fresh collection gives id 1 and stats (1,1,0,0), then (1,0,1,0), then (1,1,0,0) again with no completion stamp |
| `Scenarios.DeleteFromEmpty` | todo.py:144-151 | deleting from an empty collection removes nothing and reports 0 |

## Behaviour of the code as written

The model follows the code wherever the code does more than its evident
intent:

- `list_tasks` is meant for three kinds, "pending", "all" and "done"
  (todo.py:113-127, and the `list` command at todo.py:276-283). With any
  other kind, the code applies no filter and no sort and returns the stored
  list as it is (`Query.ListTasks`).
- A task's creation stamp is meant to be set once, when `add_task` creates
  the task (todo.py:64, 105). `Task.from_dict` also replaces an empty creation
  stamp with the load-time clock (todo.py:74), so an empty stamp does not
  survive a load (`Records.FromDictToRaw`).
- The "completed at" stamp is meant to be present exactly when the task is
  completed: `mark_done` sets both (todo.py:137-138) and `edit_task` with
  `undone` clears both (todo.py:164-166). The loader does not enforce this for hand-edited records. The
  mutations keep it when it already holds (`Mutations.MutationsKeepStamps`).
- `edit_task` with `undone` on a pending task leaves its stamp as it is,
  whatever that stamp is.

## Left out

- Reading and writing the JSON file itself (`load_data`/`save_data`, todo.py:80-99) is not modelled. The file is the value `Store.StoredFile`. A file that cannot be read as JSON, a non-object root and a record that `from_dict` rejects (todo.py:71-72) are the three fatal `LoadError`s. For malformed JSON the source ends the process with `SystemExit` (todo.py:93-94). Bytes that are not valid UTF-8 and integer literals longer than 4300 digits raise `UnicodeDecodeError` and `ValueError` instead, which that handler does not catch. The model folds all three into `ParseFailure`. The other two errors end the process with an uncaught `ValueError` for the root and an uncaught `KeyError`, `ValueError` or `TypeError` for a record.
- The clock (`now_iso`, `date.today`, todo.py:42-43, 193) is not modelled. `now` and `today` are parameters.
- The dataclass default `created_at = now_iso()` (todo.py:64) is not modelled. It is evaluated once when the module is imported. `Mutations.AddTask` takes the creation stamp as its `now` argument instead.
- Date validation with `date.fromisoformat` (`parse_date`, todo.py:46-56, and `parse_due` in app.py) is not modelled, because it is a library call. A due date reaches the model as a string that was already validated. `Dates` states the comparison property only for well-formed `YYYY-MM-DD` strings.
- Terminal rendering (`format_tasks`), argument parsing (`build_parser`) and `main` (todo.py:200-323) are not modelled. They are presentation only.
- app.py is not modelled. It is an HTTP adapter over the same functions and adds no logic to them.
- There is no locking and the write is not atomic. Concurrent access to the data file is not modelled.
- `Records.FromDict` applies `str()` to an integer field value without the 4300-digit limit. Such a value cannot come from the file, because the JSON parser already refuses integer literals longer than the limit, and that case is `ParseFailure`.
- `Decimal.ParseInt` models `int(s)` only for an optional sign followed by ASCII digits. It does not model surrounding whitespace, `_` separators, non-ASCII digits or float values, because these need Python's full numeric parser.
- Stored JSON values are modelled only as strings or null for `due` and `completed_at`, as an integer for `next_id`, and as a list for `tasks`. Other JSON types are not modelled. In the source, a string or float `next_id` is coerced by `int(data["next_id"])` when a task is added (todo.py:104). A `tasks` value that is an empty object or an empty string loads as no tasks, because the comprehension at todo.py:91 has nothing to iterate. A null, a number, or a non-empty object or string fails in the load itself with a `TypeError`. A falsy non-string `due` such as `0` or `[]` is not an error. In the overdue check it counts as "no due date" (todo.py:195). When sorting it gets the key `(False, "9999-12-31")` (todo.py:123), the same key the model gives an empty due date: after every dated task and before every task with no due date.
- `Mutations.MarkDone` reads the clock once and stamps every task it completes with that one reading. The source calls `now_iso()` once per completed task (todo.py:138), so stamps within one call can differ by the time the loop takes. The model does not promise anything about those differences.
- `Mutations.MarkDone` returns the completed tasks directly. The source rebuilds each one with `Task.from_dict`. The two agree whenever the creation stamp is non-empty, which `Store.LoadSaveLoad` shows holds for every loaded collection when the clock reading is non-empty.
- `Mutations.EditTask` returns the revised task directly. The source returns `Task.from_dict(raw)` (todo.py:168), which would replace an empty creation stamp with a fresh clock reading. The two agree whenever the creation stamp is non-empty, as after any load with a non-empty clock reading.
- `Store.Load` takes one clock reading `now` for the whole load. The source calls `now_iso()` separately for each record whose `created_at` is missing or falsy (todo.py:74), so those records can get different stamps.
- `Records.FromDict` models a record only as an object whose fields are null, booleans, integers or strings. JSON floats, arrays and objects as field values are not modelled, so `int(2.9) == 2`, `bool(0.0) == False` and `str(1.5) == "1.5"` are outside the model. A record that is not an object, where the source fails with a `TypeError` on `d["id"]`, is not modelled either.
- `Store.Load` does not establish `Model.Valid`. A hand-edited file that has tasks but no `next_id` loads with `next_id = 1`, exactly as in the source, and a later add can then reissue an existing id. The id lemmas therefore assume `Valid` of the collection they start from.
- `Query.Sort` models Python's Timsort by insertion sort. Both are stable sorts under the same key, so their results are equal, but the model does not include the algorithm or its cost.

=== FILE: dates.dfy ===
/** Calendar dates in the `YYYY-MM-DD` form that `date.isoformat()` produces.
    The overdue check compares such dates as text; this module shows that the
    text order is the calendar order for well-formed dates. */
module Dates {
  import opened TextOrder
  import opened Decimal

  predicate IsIsoDate(s: string) {
    && |s| == 10
    && AllDigits(s[..4]) && s[4] == '-'
    && AllDigits(s[5..7]) && s[7] == '-'
    && AllDigits(s[8..])
  }

  function Year(s: string): (y: nat)
    requires IsIsoDate(s)
    ensures y < 10000
  {
    ValueBound(s[..4]);
    Value(s[..4])
  }

  function Month(s: string): (m: nat)
    requires IsIsoDate(s)
    ensures m < 100
  {
    ValueBound(s[5..7]);
    Value(s[5..7])
  }

  function Day(s: string): (d: nat)
    requires IsIsoDate(s)
    ensures d < 100
  {
    ValueBound(s[8..]);
    Value(s[8..])
  }

  /** Earlier in the calendar: by year, then month, then day. */
  predicate Earlier(a: string, b: string)
    requires IsIsoDate(a) && IsIsoDate(b)
  {
    || Year(a) < Year(b)
    || (Year(a) == Year(b) && Month(a) < Month(b))
    || (Year(a) == Year(b) && Month(a) == Month(b) && Day(a) < Day(b))
  }

  /** Split at `k` and compare: the head of width `k` first, then the rest. */
  lemma SplitLess(a: string, b: string, k: nat)
    requires k <= |a| && |a| == |b|
    ensures Less(a, b) <==> Less(a[..k], b[..k]) || (a[..k] == b[..k] && Less(a[k..], b[k..]))
  {
    assert a == a[..k] + a[k..] && b == b[..k] + b[k..];
    LessConcat(a[..k], a[k..], b[..k], b[k..]);
  }

  /** The string comparison the overdue check performs is the calendar
      comparison, for dates in `YYYY-MM-DD` form. */
  lemma IsoDateLessIsChronological(a: string, b: string)
    requires IsIsoDate(a) && IsIsoDate(b)
    ensures Less(a, b) <==> Earlier(a, b)
  {
    // year, then "-", then month, then "-", then day
    SplitLess(a, b, 4);
    assert a[..4] == a[0..4] && b[..4] == b[0..4];
    FixedWidthLess(a[..4], b[..4]);
    FixedWidthSame(a[..4], b[..4]);
    LessIrreflexive("-");

    SplitLess(a[4..], b[4..], 1);
    assert a[4..][..1] == "-" == b[4..][..1];
    assert a[4..][1..] == a[5..] && b[4..][1..] == b[5..];

    SplitLess(a[5..], b[5..], 2);
    assert a[5..][..2] == a[5..7] && b[5..][..2] == b[5..7];
    assert a[5..][2..] == a[7..] && b[5..][2..] == b[7..];
    FixedWidthLess(a[5..7], b[5..7]);
    FixedWidthSame(a[5..7], b[5..7]);

    SplitLess(a[7..], b[7..], 1);
    assert a[7..][..1] == "-" == b[7..][..1];
    assert a[7..][1..] == a[8..] && b[7..][1..] == b[8..];
    FixedWidthLess(a[8..], b[8..]);
  }
}

=== FILE: decimal.dfy ===
/** Decimal text and integers: Python's `str(n)` for an `int`, the part of
    `int(s)` that reads a signed run of ASCII digits, and the fact that for
    digit strings of equal width the text order is the numeric order. */
module Decimal {
  import opened Wrappers
  import opened TextOrder

  predicate IsDigit(c: char) {
    '0' <= c <= '9'
  }

  predicate AllDigits(s: string) {
    forall i :: 0 <= i < |s| ==> IsDigit(s[i])
  }

  function DigitValue(c: char): (d: nat)
    requires IsDigit(c)
    ensures d < 10
  {
    (c as int) - ('0' as int)
  }

  function DigitChar(d: nat): (c: char)
    requires d < 10
    ensures IsDigit(c) && DigitValue(c) == d
  {
    ((('0' as int) + d) as char)
  }

  function Pow10(n: nat): (r: nat)
    ensures r >= 1
  {
    if n == 0 then 1 else 10 * Pow10(n - 1)
  }

  /** The number a digit string denotes, most significant digit first. */
  function Value(s: string): (v: nat)
    requires AllDigits(s)
    decreases |s|
  {
    if |s| == 0 then 0 else 10 * Value(s[..|s| - 1]) + DigitValue(s[|s| - 1])
  }

  lemma {:induction false} ValueBound(s: string)
    requires AllDigits(s)
    ensures Value(s) < Pow10(|s|)
    decreases |s|
  {
    if |s| > 0 {
      ValueBound(s[..|s| - 1]);
    }
  }

  /** Reading the leading digit off: the same number split at the front. */
  lemma {:induction false} ValueFront(s: string)
    requires AllDigits(s) && |s| > 0
    ensures Value(s) == DigitValue(s[0]) * Pow10(|s| - 1) + Value(s[1..])
    decreases |s|
  {
    if |s| > 1 {
      var init := s[..|s| - 1];
      ValueFront(init);
      assert init[0] == s[0];
      assert init[1..] == s[1..][..|s[1..]| - 1];
      assert Pow10(|s| - 1) == 10 * Pow10(|s| - 2);
    }
  }

  /** A higher leading digit outweighs any lower-order remainder. */
  lemma {:induction false} DigitsScale(d1: nat, v1: nat, d2: nat, v2: nat, p: nat)
    requires d1 < d2 && v1 < p
    ensures d1 * p + v1 < d2 * p + v2
    decreases d2
  {
    assert d2 * p == (d2 - 1) * p + p;
    if d1 < d2 - 1 {
      DigitsScale(d1, v1, d2 - 1, v2, p);
    }
  }

  /** For digit strings of one width, `<` on the text is `<` on the numbers. */
  lemma {:induction false} FixedWidthLess(a: string, b: string)
    requires AllDigits(a) && AllDigits(b) && |a| == |b|
    ensures Less(a, b) <==> Value(a) < Value(b)
    decreases |a|
  {
    if |a| > 0 {
      ValueFront(a);
      ValueFront(b);
      ValueBound(a[1..]);
      ValueBound(b[1..]);
      var p := Pow10(|a| - 1);
      if a[0] == b[0] {
        FixedWidthLess(a[1..], b[1..]);
      } else if a[0] < b[0] {
        DigitsScale(DigitValue(a[0]), Value(a[1..]), DigitValue(b[0]), Value(b[1..]), p);
      } else {
        DigitsScale(DigitValue(b[0]), Value(b[1..]), DigitValue(a[0]), Value(a[1..]), p);
      }
    }
  }

  /** Two digit strings of one width with the same number are the same text. */
  lemma FixedWidthSame(a: string, b: string)
    requires AllDigits(a) && AllDigits(b) && |a| == |b|
    ensures a == b <==> Value(a) == Value(b)
  {
    FixedWidthLess(a, b);
    FixedWidthLess(b, a);
    LessTrichotomy(a, b);
  }

  /** CPython's default limit on the number of decimal digits that `int(s)`
      reads and `str(n)` writes; longer conversions raise `ValueError`. */
  const MaxDigits: nat := 4300

  /** Python's `str(n)` for a non-negative `int`: no leading zeros. */
  function ShowNat(n: nat): (s: string)
    ensures |s| > 0 && AllDigits(s)
    ensures s[0] != '0' || n == 0
    decreases n
  {
    if n < 10 then [DigitChar(n)] else ShowNat(n / 10) + [DigitChar(n % 10)]
  }

  /** Python's `str(n)` for an `int`, digits as if there were no limit. */
  function Show(n: int): (s: string)
    ensures |s| > 0
  {
    if n < 0 then "-" + ShowNat(-n) else ShowNat(n)
  }

  /** `n` has few enough digits for CPython to convert it to or from text. */
  predicate Convertible(n: int) {
    |ShowNat(if n < 0 then -n else n)| <= MaxDigits
  }

  /** A run of one to `MaxDigits` ASCII digits read as its number. */
  function Digits(s: string): (r: Option<nat>)
    ensures r.Some? <==> AllDigits(s) && 0 < |s| <= MaxDigits
    ensures r.Some? ==> r.value == Value(s)
  {
    if AllDigits(s) && 0 < |s| <= MaxDigits then Some(Value(s)) else None
  }

  /** Python's `int(s)` for text that is an optional sign followed by one to
      `MaxDigits` ASCII digits; anything else is the `ValueError` case. */
  function ParseInt(s: string): (r: Option<int>)
    ensures r.Some? ==> |s| > 0
    ensures AllDigits(s) && 0 < |s| <= MaxDigits ==> r == Some(Value(s))
    ensures AllDigits(s) && |s| > MaxDigits ==> r.None?
    ensures |s| > 0 && (s[0] == '-' || s[0] == '+') && AllDigits(s[1..]) && |s| > MaxDigits + 1 ==> r.None?
  {
    if |s| > 0 && s[0] == '-' then
      match Digits(s[1..])
      case Some(v) => Some(-(v as int))
      case None => None
    else if |s| > 0 && s[0] == '+' then Digits(s[1..])
    else Digits(s)
  }

  lemma {:induction false} ValueShowNat(n: nat)
    ensures Value(ShowNat(n)) == n
    decreases n
  {
    if n >= 10 {
      ValueShowNat(n / 10);
      var s := ShowNat(n);
      assert s[..|s| - 1] == ShowNat(n / 10);
    }
  }

  /** `int(str(n)) == n` for every integer within the digit limit; beyond
      it the conversion is refused. */
  lemma ParseShow(n: int)
    ensures ParseInt(Show(n)).Some? <==> Convertible(n)
    ensures Convertible(n) ==> ParseInt(Show(n)) == Some(n)
  {
    if n < 0 {
      ValueShowNat(-n);
      assert Show(n)[1..] == ShowNat(-n);
    } else {
      ValueShowNat(n);
    }
  }

  /** The digit limit as a range: strictly between `-10^4300` and `10^4300`. */
  lemma ConvertibleRange(n: int)
    ensures Convertible(n) <==> -(Pow10(MaxDigits) as int) < n < Pow10(MaxDigits)
  {
    ShowNatWidth(if n < 0 then -n else n, MaxDigits);
  }

  /** A number has at most `k` digits exactly when it is below `10^k`. */
  lemma {:induction false} ShowNatWidth(n: nat, k: nat)
    requires k >= 1
    ensures |ShowNat(n)| <= k <==> n < Pow10(k)
    decreases n
  {
    assert Pow10(k) == 10 * Pow10(k - 1);
    if n >= 10 {
      if k >= 2 {
        ShowNatWidth(n / 10, k - 1);
        assert n / 10 < Pow10(k - 1) <==> n < 10 * Pow10(k - 1);
      }
    }
  }
}

=== FILE: model.dfy ===
/** The task entity, the persisted collection, and the identifier invariant
    that the mutations keep. */
module Model {
  import opened Wrappers
  import opened Seqs

  /** One to-do item. `due` is a `YYYY-MM-DD` date; `createdAt` and
      `completedAt` are UTC timestamps; all three are compared as text. */
  datatype Task = Task(
    id: int,
    title: string,
    completed: bool,
    createdAt: string,
    due: Option<string>,
    completedAt: Option<string>)

  /** The whole stored aggregate: the id counter and the tasks in the order
      they were stored. */
  datatype Collection = Collection(nextId: int, tasks: seq<Task>)

  /** What an operation leaves behind, and what it reports to its caller. */
  datatype Outcome<+T> = Outcome(after: Collection, value: T)

  /** The collection of a first run: there is no data file yet. */
  function Empty(): (c: Collection)
    ensures c.nextId == 1 && |c.tasks| == 0
  {
    Collection(1, [])
  }

  predicate IsPending(t: Task) {
    !t.completed
  }

  predicate IsDone(t: Task) {
    t.completed
  }

  predicate HasIdIn(ids: set<int>, t: Task) {
    t.id in ids
  }

  /** Every stored id was issued before the counter's current value. */
  predicate IdsBelow(c: Collection) {
    forall i :: 0 <= i < |c.tasks| ==> c.tasks[i].id < c.nextId
  }

  /** Ids grow strictly along the stored order (the order of creation). */
  predicate IdsAscending(s: seq<Task>) {
    forall i, j :: 0 <= i < j < |s| ==> s[i].id < s[j].id
  }

  /** The invariant the operations keep: the counter is above every id, and
      ids are in creation order, hence pairwise distinct. */
  predicate Valid(c: Collection) {
    IdsBelow(c) && IdsAscending(c.tasks)
  }

  /** A task carries a completion stamp exactly when it is completed. */
  predicate StampsMatch(c: Collection) {
    forall i :: 0 <= i < |c.tasks| ==> (c.tasks[i].completed <==> c.tasks[i].completedAt.Some?)
  }

  lemma ValidIdsUnique(c: Collection, i: int, j: int)
    requires Valid(c)
    requires 0 <= i < |c.tasks| && 0 <= j < |c.tasks| && i != j
    ensures c.tasks[i].id != c.tasks[j].id
  {
  }

  /** Both sequences hold tasks with the same ids at the same positions. */
  predicate SameIds(a: seq<Task>, b: seq<Task>) {
    |a| == |b| && forall i :: 0 <= i < |a| ==> a[i].id == b[i].id
  }

  /** A change that keeps every id where it was keeps the invariant. */
  lemma SameIdsKeepValid(c: Collection, tasks: seq<Task>)
    requires Valid(c) && SameIds(c.tasks, tasks)
    ensures Valid(c.(tasks := tasks))
  {
  }

  /** Dropping tasks keeps the invariant, whatever is dropped. */
  lemma {:induction false} SubsequenceKeepsAscending(a: seq<Task>, b: seq<Task>)
    requires IsSubsequence(a, b) && IdsAscending(b)
    ensures IdsAscending(a)
    decreases |b|
  {
    if |a| > 0 {
      if a[0] == b[0] && IsSubsequence(a[1..], b[1..]) {
        SubsequenceKeepsAscending(a[1..], b[1..]);
        SubsequenceMembers(a[1..], b[1..]);
        forall j | 0 < j < |a|
          ensures a[0].id < a[j].id
        {
          assert a[j] in a[1..];
          var k :| 0 <= k < |b[1..]| && b[1..][k] == a[j];
          assert b[k + 1] == a[j];
        }
        forall i, j | 0 <= i < j < |a|
          ensures a[i].id < a[j].id
        {
          if i > 0 {
            assert a[i] == a[1..][i - 1] && a[j] == a[1..][j - 1];
          }
        }
      } else {
        SubsequenceKeepsAscending(a, b[1..]);
      }
    }
  }

  lemma FilterKeepsValid(c: Collection, p: Task -> bool)
    requires Valid(c)
    ensures Valid(c.(tasks := Filter(c.tasks, p)))
  {
    SubsequenceKeepsAscending(Filter(c.tasks, p), c.tasks);
    FilterKeepsIdsBelow(c, p);
  }

  /** Dropping tasks keeps every remaining id below the counter. */
  lemma FilterKeepsIdsBelow(c: Collection, p: Task -> bool)
    requires IdsBelow(c)
    ensures IdsBelow(c.(tasks := Filter(c.tasks, p)))
  {
    var kept := Filter(c.tasks, p);
    forall i | 0 <= i < |kept|
      ensures kept[i].id < c.nextId
    {
      assert kept[i] in c.tasks;
    }
  }
}

=== FILE: mutations.dfy ===
/** The mutations of the task collection: add, mark done, delete, edit and
    clear. Each is the transform step between `load_data` and `save_data`,
    as a function from the loaded collection to the collection to be saved
    and the value reported to the caller. `now` is the UTC timestamp the
    operation would read from the clock. */
module Mutations {
  import opened Wrappers
  import opened Model
  import opened Seqs

  // ---------------------------------------------------------------- add

  /** `add_task`: the new task takes the counter's value as its id, starts
      pending with no completion stamp, and goes at the end. */
  function AddTask(c: Collection, title: string, due: Option<string>, now: string): (r: Outcome<Task>)
    ensures r.value.id == c.nextId && r.value.title == title && r.value.due == due
    ensures !r.value.completed && r.value.completedAt.None? && r.value.createdAt == now
    ensures r.after.tasks == c.tasks + [r.value]
    ensures r.after.nextId == c.nextId + 1
  {
    var t := Task(c.nextId, title, false, now, due, None);
    Outcome(Collection(c.nextId + 1, c.tasks + [t]), t)
  }

  /** The id an add issues was never issued before, is above every id still
      stored, and the invariant holds afterwards. */
  lemma AddKeepsValid(c: Collection, title: string, due: Option<string>, now: string)
    requires Valid(c)
    ensures var r := AddTask(c, title, due, now);
      && Valid(r.after)
      && (forall i :: 0 <= i < |c.tasks| ==> c.tasks[i].id < r.value.id)
  {
  }

  /** After "clear all" the counter starts over: the next add issues id 1. */
  lemma ClearAllRestartsIds(c: Collection, title: string, due: Option<string>, now: string)
    ensures ClearTasks(c, "all").Ok?
    ensures AddTask(ClearTasks(c, "all").value.after, title, due, now).value.id == 1
  {
  }

  // ---------------------------------------------------------- mark done

  /** Whether `mark_done(ids)` changes this task. */
  predicate Selected(ids: set<int>, t: Task) {
    t.id in ids && !t.completed
  }

  function SelectedBy(ids: set<int>): (p: Task -> bool) {
    t => Selected(ids, t)
  }

  function Complete(t: Task, now: string): (r: Task)
    ensures r.completed && r.completedAt == Some(now)
    ensures r.id == t.id && r.title == t.title && r.createdAt == t.createdAt && r.due == t.due
  {
    t.(completed := true, completedAt := Some(now))
  }

  function CompleteAt(now: string): (f: Task -> Task) {
    t => Complete(t, now)
  }

  /** One pass over the stored tasks, completing the selected ones and
      collecting them as they are completed. */
  function MarkEach(tasks: seq<Task>, ids: set<int>, now: string): (r: (seq<Task>, seq<Task>))
    ensures |r.0| == |tasks|
    ensures forall i :: 0 <= i < |tasks| ==>
      r.0[i] == (if Selected(ids, tasks[i]) then Complete(tasks[i], now) else tasks[i])
    ensures r.1 == Map(Filter(tasks, SelectedBy(ids)), CompleteAt(now))
    decreases |tasks|
  {
    if |tasks| == 0 then ([], [])
    else
      var rest := MarkEach(tasks[1..], ids, now);
      if Selected(ids, tasks[0]) then
        var t := Complete(tasks[0], now);
        ([t] + rest.0, [t] + rest.1)
      else
        ([tasks[0]] + rest.0, rest.1)
  }

  /** `mark_done`: every pending task whose id is given becomes done, stamped
      with the clock reading `now`; the changed tasks are returned in stored
      order; nothing else moves. */
  function MarkDone(c: Collection, ids: set<int>, now: string): (r: Outcome<seq<Task>>)
    ensures r.after.nextId == c.nextId && SameIds(c.tasks, r.after.tasks)
    ensures forall i :: 0 <= i < |c.tasks| && Selected(ids, c.tasks[i]) ==>
      && r.after.tasks[i].completed && r.after.tasks[i].completedAt == Some(now)
      && r.after.tasks[i].title == c.tasks[i].title
      && r.after.tasks[i].createdAt == c.tasks[i].createdAt
      && r.after.tasks[i].due == c.tasks[i].due
    ensures forall i :: 0 <= i < |c.tasks| && !Selected(ids, c.tasks[i]) ==> r.after.tasks[i] == c.tasks[i]
    ensures r.value == Map(Filter(c.tasks, SelectedBy(ids)), CompleteAt(now))
  {
    var (tasks, updated) := MarkEach(c.tasks, ids, now);
    Outcome(c.(tasks := tasks), updated)
  }

  lemma MarkDoneKeepsValid(c: Collection, ids: set<int>, now: string)
    requires Valid(c)
    ensures Valid(MarkDone(c, ids, now).after)
  {
    SameIdsKeepValid(c, MarkDone(c, ids, now).after.tasks);
  }

  /** Marking the same ids again changes nothing and reports nothing, so the
      first completion stamp stays. */
  lemma MarkDoneIdempotent(c: Collection, ids: set<int>, now: string, later: string)
    ensures var first := MarkDone(c, ids, now);
      && MarkDone(first.after, ids, later).after == first.after
      && MarkDone(first.after, ids, later).value == []
  {
    var first := MarkDone(c, ids, now).after;
    var second := MarkDone(first, ids, later);
    forall t | t in first.tasks
      ensures !SelectedBy(ids)(t)
    {
    }
    FilterKeepsNone(first.tasks, SelectedBy(ids));
    assert second.after.tasks == first.tasks;
  }

  // ------------------------------------------------------------- delete

  function IdIn(ids: set<int>): (p: Task -> bool) {
    t => HasIdIn(ids, t)
  }

  function IdNotIn(ids: set<int>): (p: Task -> bool) {
    t => !HasIdIn(ids, t)
  }

  /** `delete_tasks`: drop every task whose id is given and report how many
      went; the rest keep their order and the counter is untouched. */
  function DeleteTasks(c: Collection, ids: set<int>): (r: Outcome<nat>)
    ensures r.after.nextId == c.nextId
    ensures forall t :: t in r.after.tasks <==> t in c.tasks && t.id !in ids
    ensures IsSubsequence(r.after.tasks, c.tasks)
    ensures r.value == |Filter(c.tasks, IdIn(ids))|
    ensures r.value + |r.after.tasks| == |c.tasks|
  {
    var kept := Filter(c.tasks, IdNotIn(ids));
    FilterPartition(c.tasks, IdIn(ids), IdNotIn(ids));
    Outcome(c.(tasks := kept), |c.tasks| - |kept|)
  }

  lemma DeleteKeepsValid(c: Collection, ids: set<int>)
    requires Valid(c)
    ensures Valid(DeleteTasks(c, ids).after)
  {
    FilterKeepsValid(c, IdNotIn(ids));
  }

  // --------------------------------------------------------------- edit

  /** The position of the first task with this id, if any. */
  function FirstWithId(s: seq<Task>, id: int): (r: Option<nat>)
    ensures r.None? <==> forall i :: 0 <= i < |s| ==> s[i].id != id
    ensures r.Some? ==> r.value < |s| && s[r.value].id == id
    ensures r.Some? ==> forall i :: 0 <= i < r.value ==> s[i].id != id
    decreases |s|
  {
    if |s| == 0 then None
    else if s[0].id == id then Some(0)
    else
      match FirstWithId(s[1..], id)
      case None => None
      case Some(k) => Some(k + 1)
  }

  /** The changes `edit_task` asks for. `clearDue` wins over `due`. */
  datatype Edit = Edit(title: Option<string>, due: Option<string>, clearDue: bool, undone: bool)

  /** One task with the edit applied, as the loop body of `edit_task` does. */
  function Revise(t: Task, e: Edit): (r: Task)
    ensures r.id == t.id && r.createdAt == t.createdAt
    ensures e.title.Some? ==> r.title == e.title.value
    ensures e.title.None? ==> r.title == t.title
    ensures e.clearDue ==> r.due.None?
    ensures !e.clearDue ==> r.due == (if e.due.Some? then e.due else t.due)
    ensures e.undone ==> !r.completed && (t.completed ==> r.completedAt.None?)
    ensures !e.undone || !t.completed ==> r.completed == t.completed && r.completedAt == t.completedAt
  {
    var reopen := e.undone && t.completed;
    t.(title := e.title.GetOr(t.title),
       due := if e.clearDue then None else if e.due.Some? then e.due else t.due,
       completed := if reopen then false else t.completed,
       completedAt := if reopen then None else t.completedAt)
  }

  /** `edit_task`: find the first task with the id; if there is none report
      "not found" and change nothing, otherwise revise that task alone. */
  function EditTask(c: Collection, id: int, e: Edit): (r: Outcome<Option<Task>>)
    ensures r.value.None? <==> forall t :: t in c.tasks ==> t.id != id
    ensures r.value.None? ==> r.after == c
    ensures r.after.nextId == c.nextId && SameIds(c.tasks, r.after.tasks)
    ensures r.value.Some? ==> exists k :: 0 <= k < |c.tasks| && EditedAt(c, r, k, id, e)
  {
    match FirstWithId(c.tasks, id)
    case None => Outcome(c, None)
    case Some(k) =>
      var t := Revise(c.tasks[k], e);
      var r := Outcome(c.(tasks := c.tasks[k := t]), Some(t));
      assert EditedAt(c, r, k, id, e);
      r
  }

  /** The edit landed on position `k`, the first with the id: only that task
      changed; id and creation stamp are kept; a given title replaces the old
      one; clearing the due date wins over a given one; `undone` reopens a
      done task and does nothing to a pending one. */
  ghost predicate EditedAt(c: Collection, r: Outcome<Option<Task>>, k: int, id: int, e: Edit)
    requires 0 <= k < |c.tasks| && |r.after.tasks| == |c.tasks| && r.value.Some?
  {
    var prev := c.tasks[k];
    var edited := r.value.value;
    && prev.id == id
    && (forall i :: 0 <= i < k ==> c.tasks[i].id != id)
    && r.after.tasks == c.tasks[k := edited]
    && edited.id == prev.id && edited.createdAt == prev.createdAt
    && edited.title == (if e.title.Some? then e.title.value else prev.title)
    && (e.clearDue ==> edited.due.None?)
    && (!e.clearDue && e.due.Some? ==> edited.due == e.due)
    && (!e.clearDue && e.due.None? ==> edited.due == prev.due)
    && (e.undone ==> !edited.completed)
    && (e.undone && prev.completed ==> edited.completedAt.None?)
    && (!e.undone || !prev.completed ==> edited.completed == prev.completed && edited.completedAt == prev.completedAt)
  }

  lemma EditKeepsValid(c: Collection, id: int, e: Edit)
    requires Valid(c)
    ensures Valid(EditTask(c, id, e).after)
  {
    SameIdsKeepValid(c, EditTask(c, id, e).after.tasks);
  }

  /** Applying the same edit twice is the same as applying it once. */
  lemma EditIdempotent(c: Collection, id: int, e: Edit)
    ensures EditTask(EditTask(c, id, e).after, id, e) == EditTask(c, id, e)
  {
    var first := EditTask(c, id, e);
    match FirstWithId(c.tasks, id)
    case None =>
    case Some(k) =>
      assert FirstWithId(first.after.tasks, id) == Some(k);
      assert first.after.tasks[k := Revise(first.after.tasks[k], e)] == first.after.tasks;
  }

  // -------------------------------------------------------------- clear

  datatype ClearError = UnknownMode

  /** `clear_tasks`: "done" drops the completed tasks and keeps the counter,
      "all" drops everything and restarts the counter at 1; both report how
      many went. Any other mode is an error and nothing is saved. */
  function ClearTasks(c: Collection, mode: string): (r: Result<Outcome<nat>, ClearError>)
    ensures r.Ok? <==> mode == "done" || mode == "all"
    ensures r.Err? ==> r.error == UnknownMode
    ensures mode == "done" ==>
      && r.Ok? && r.value.after.nextId == c.nextId
      && (forall t :: t in r.value.after.tasks <==> t in c.tasks && !t.completed)
      && IsSubsequence(r.value.after.tasks, c.tasks)
      && r.value.value == |Filter(c.tasks, IsDone)|
      && r.value.value + |r.value.after.tasks| == |c.tasks|
    ensures mode == "all" ==>
      && r.Ok? && r.value.after.nextId == 1 && r.value.after.tasks == []
      && r.value.value == |c.tasks|
  {
    if mode == "done" then
      var kept := Filter(c.tasks, IsPending);
      FilterPartition(c.tasks, IsDone, IsPending);
      Ok(Outcome(c.(tasks := kept), |c.tasks| - |kept|))
    else if mode == "all" then
      Ok(Outcome(Collection(1, []), |c.tasks|))
    else
      Err(UnknownMode)
  }

  lemma ClearKeepsValid(c: Collection, mode: string)
    requires Valid(c) && ClearTasks(c, mode).Ok?
    ensures Valid(ClearTasks(c, mode).value.after)
  {
    if mode == "done" {
      FilterKeepsValid(c, IsPending);
    }
  }

  /** The counter never goes back except by "clear all": every other
      mutation keeps it or, for add, moves it up by one. */
  lemma CounterOnlyResetByClearAll(c: Collection, ids: set<int>, id: int, e: Edit, mode: string,
                                   title: string, due: Option<string>, now: string)
    ensures AddTask(c, title, due, now).after.nextId == c.nextId + 1
    ensures MarkDone(c, ids, now).after.nextId == c.nextId
    ensures DeleteTasks(c, ids).after.nextId == c.nextId
    ensures EditTask(c, id, e).after.nextId == c.nextId
    ensures ClearTasks(c, mode).Ok? && ClearTasks(c, mode).value.after.nextId != c.nextId ==> mode == "all"
  {
  }

  /** A completion stamp is present exactly on completed tasks, and every
      mutation keeps it that way: add starts pending without a stamp, mark
      done sets both, `undone` clears both, and removals keep the rest. */
  lemma MutationsKeepStamps(c: Collection, ids: set<int>, id: int, e: Edit, mode: string,
                            title: string, due: Option<string>, now: string)
    requires StampsMatch(c)
    ensures StampsMatch(AddTask(c, title, due, now).after)
    ensures StampsMatch(MarkDone(c, ids, now).after)
    ensures StampsMatch(DeleteTasks(c, ids).after)
    ensures StampsMatch(EditTask(c, id, e).after)
    ensures ClearTasks(c, mode).Ok? ==> StampsMatch(ClearTasks(c, mode).value.after)
  {
    FilterKeepsStamps(c, IdNotIn(ids));
    FilterKeepsStamps(c, IsPending);
  }

  lemma FilterKeepsStamps(c: Collection, p: Task -> bool)
    requires StampsMatch(c)
    ensures StampsMatch(c.(tasks := Filter(c.tasks, p)))
  {
    var kept := Filter(c.tasks, p);
    forall i | 0 <= i < |kept|
      ensures kept[i].completed <==> kept[i].completedAt.Some?
    {
      assert kept[i] in c.tasks;
    }
  }

  /** Every stored id below the counter is kept by every mutation except
      "clear all" (which empties the list), without assuming the ids are in
      creation order, as in a hand-edited file. */
  lemma MutationsKeepIdsBelow(c: Collection, ids: set<int>, id: int, e: Edit, mode: string,
                              title: string, due: Option<string>, now: string)
    requires IdsBelow(c)
    ensures IdsBelow(AddTask(c, title, due, now).after)
    ensures IdsBelow(MarkDone(c, ids, now).after)
    ensures IdsBelow(EditTask(c, id, e).after)
    ensures IdsBelow(DeleteTasks(c, ids).after)
    ensures ClearTasks(c, mode).Ok? ==> IdsBelow(ClearTasks(c, mode).value.after)
  {
    FilterKeepsIdsBelow(c, IdNotIn(ids));
    FilterKeepsIdsBelow(c, IsPending);
  }
}

=== FILE: query.dfy ===
/** `list_tasks`: filter the stored tasks by status, then order them with
    Python's stable `list.sort` under the key the view asks for. */
module Query {
  import opened Wrappers
  import opened TextOrder
  import opened Model
  import opened Seqs

  /** Stands in for a missing due date, so undated tasks need no special case
      in the second key component. */
  const NoDueSentinel: string := "9999-12-31"

  /** The two sort orders: pending/all ascending by due date then creation
      stamp; done descending by completion stamp. */
  datatype Order = ByDue | ByCompletionDesc

  /** A sort key: Python's tuple `((undated, primary), secondary)`, with
      `False < True` on the flag. */
  datatype SortKey = SortKey(undated: bool, primary: string, secondary: string)

  /** Python's `<` on two such keys: component by component. */
  predicate KeyLess(a: SortKey, b: SortKey) {
    || (!a.undated && b.undated)
    || (a.undated == b.undated && Less(a.primary, b.primary))
    || (a.undated == b.undated && a.primary == b.primary && Less(a.secondary, b.secondary))
  }

  /** The sort key of `list_tasks`: by due date, an absent date last and an
      empty one read as the far-future sentinel, then by creation stamp; or by
      completion stamp alone, a missing one read as "". */
  function KeyOf(o: Order, t: Task): (k: SortKey)
    ensures o.ByDue? ==> (k.undated <==> t.due.None?) && k.secondary == t.createdAt
    ensures o.ByDue? && t.due.Some? && t.due.value != "" ==> k.primary == t.due.value
    ensures o.ByDue? && t.due == Some("") ==> !k.undated && k.primary == NoDueSentinel
    ensures o.ByDue? && t.due.None? ==> k.primary == NoDueSentinel
    ensures o.ByCompletionDesc? ==> !k.undated && k.secondary == ""
    ensures o.ByCompletionDesc? ==> k.primary == t.completedAt.GetOr("")
  {
    match o
    case ByDue =>
      SortKey(t.due.None?, if t.due.Some? && t.due.value != "" then t.due.value else NoDueSentinel, t.createdAt)
    case ByCompletionDesc =>
      SortKey(false, t.completedAt.GetOr(""), "")
  }

  /** `a` sorts strictly before `b`; `reverse=True` flips the key order. */
  predicate Precedes(o: Order, a: Task, b: Task) {
    match o
    case ByDue => KeyLess(KeyOf(o, a), KeyOf(o, b))
    case ByCompletionDesc => KeyLess(KeyOf(o, b), KeyOf(o, a))
  }

  lemma KeyLessIrreflexive(a: SortKey)
    ensures !KeyLess(a, a)
  {
    LessIrreflexive(a.primary);
    LessIrreflexive(a.secondary);
  }

  /** Two keys neither of which is below the other are the same key. */
  lemma KeyLessTotal(a: SortKey, b: SortKey)
    ensures KeyLess(a, b) || a == b || KeyLess(b, a)
  {
    LessTrichotomy(a.primary, b.primary);
    LessTrichotomy(a.secondary, b.secondary);
  }

  lemma KeyLessTransitive(a: SortKey, b: SortKey, c: SortKey)
    requires KeyLess(a, b) && KeyLess(b, c)
    ensures KeyLess(a, c)
  {
    if a.undated == b.undated == c.undated {
      if Less(a.primary, b.primary) && Less(b.primary, c.primary) {
        LessTransitive(a.primary, b.primary, c.primary);
      }
      if a.primary == b.primary == c.primary && Less(a.secondary, b.secondary) && Less(b.secondary, c.secondary) {
        LessTransitive(a.secondary, b.secondary, c.secondary);
      }
    }
  }

  lemma PrecedesIrreflexive(o: Order, a: Task)
    ensures !Precedes(o, a, a)
  {
    KeyLessIrreflexive(KeyOf(o, a));
  }

  /** Strictly preceding means a different key. */
  lemma PrecedesDistinctKeys(o: Order, a: Task, b: Task)
    requires Precedes(o, a, b)
    ensures KeyOf(o, a) != KeyOf(o, b)
  {
    KeyLessIrreflexive(KeyOf(o, a));
  }

  lemma PrecedesAsymmetric(o: Order, a: Task, b: Task)
    requires Precedes(o, a, b)
    ensures !Precedes(o, b, a)
  {
    var ka, kb := KeyOf(o, a), KeyOf(o, b);
    KeyLessIrreflexive(ka);
    KeyLessIrreflexive(kb);
    if Precedes(o, b, a) {
      match o
      case ByDue => KeyLessTransitive(ka, kb, ka);
      case ByCompletionDesc => KeyLessTransitive(kb, ka, kb);
    }
  }

  /** "Not before" is transitive, as Python's sort needs of its key order. */
  lemma NotPrecedesTransitive(o: Order, a: Task, b: Task, c: Task)
    requires !Precedes(o, b, a) && !Precedes(o, c, b)
    ensures !Precedes(o, c, a)
  {
    var ka, kb, kc := KeyOf(o, a), KeyOf(o, b), KeyOf(o, c);
    KeyLessTotal(ka, kb);
    match o
    case ByDue =>
      if KeyLess(kc, ka) && KeyLess(ka, kb) {
        KeyLessTransitive(kc, ka, kb);
      }
    case ByCompletionDesc =>
      if KeyLess(kb, ka) && KeyLess(ka, kc) {
        KeyLessTransitive(kb, ka, kc);
      }
  }

  /** No element is strictly before one that comes earlier. */
  predicate Sorted(o: Order, s: seq<Task>) {
    forall i, j :: 0 <= i < j < |s| ==> !Precedes(o, s[j], s[i])
  }

  function HasKey(o: Order, k: SortKey): (p: Task -> bool) {
    t => KeyOf(o, t) == k
  }

  /** Tasks with equal keys keep their relative order: for every key, the
      tasks with that key appear in `r` exactly as in `s`. */
  ghost predicate Stable(o: Order, s: seq<Task>, r: seq<Task>) {
    forall k :: Filter(r, HasKey(o, k)) == Filter(s, HasKey(o, k))
  }

  /** Put `x` into the sorted `s` after everything strictly before it. */
  function Insert(o: Order, x: Task, s: seq<Task>): (r: seq<Task>)
    ensures multiset(r) == multiset(s) + multiset{x}
    ensures Sorted(o, s) ==> Sorted(o, r)
    decreases |s|
  {
    if |s| == 0 then [x]
    else if Precedes(o, s[0], x) then
      var rest := Insert(o, x, s[1..]);
      assert s == [s[0]] + s[1..];
      InsertHeadSorted(o, x, s, rest);
      [s[0]] + rest
    else
      InsertFrontSorted(o, x, s);
      [x] + s
  }

  lemma InsertHeadSorted(o: Order, x: Task, s: seq<Task>, rest: seq<Task>)
    requires |s| > 0 && Precedes(o, s[0], x)
    requires multiset(rest) == multiset(s[1..]) + multiset{x}
    requires Sorted(o, s) ==> Sorted(o, rest)
    ensures Sorted(o, s) ==> Sorted(o, [s[0]] + rest)
  {
    if Sorted(o, s) {
      HeadNotPreceded(o, x, s, rest);
      ConsSorted(o, s[0], rest);
    }
  }

  /** Nothing in the rest of a sorted list, nor a task the head precedes,
      belongs before the head. */
  lemma HeadNotPreceded(o: Order, x: Task, s: seq<Task>, rest: seq<Task>)
    requires |s| > 0 && Precedes(o, s[0], x) && Sorted(o, s)
    requires multiset(rest) == multiset(s[1..]) + multiset{x}
    ensures forall y :: y in rest ==> !Precedes(o, y, s[0])
  {
    forall y | y in rest
      ensures !Precedes(o, y, s[0])
    {
      assert y in multiset(rest);
      if y == x {
        PrecedesAsymmetric(o, s[0], x);
      } else {
        assert y in multiset(s[1..]);
        var m :| 0 <= m < |s[1..]| && s[1..][m] == y;
        assert s[m + 1] == y;
      }
    }
  }

  lemma ConsSorted(o: Order, h: Task, rest: seq<Task>)
    requires Sorted(o, rest)
    requires forall y :: y in rest ==> !Precedes(o, y, h)
    ensures Sorted(o, [h] + rest)
  {
    var r := [h] + rest;
    forall i, j | 0 <= i < j < |r|
      ensures !Precedes(o, r[j], r[i])
    {
      assert r[j] == rest[j - 1];
      if i > 0 {
        assert r[i] == rest[i - 1];
      }
    }
  }

  lemma InsertFrontSorted(o: Order, x: Task, s: seq<Task>)
    requires |s| > 0 && !Precedes(o, s[0], x)
    ensures Sorted(o, s) ==> Sorted(o, [x] + s)
  {
    if Sorted(o, s) {
      var r := [x] + s;
      forall i, j | 0 <= i < j < |r|
        ensures !Precedes(o, r[j], r[i])
      {
        if i == 0 && j > 1 {
          NotPrecedesTransitive(o, x, s[0], s[j - 1]);
        }
      }
    }
  }

  /** Inserting `x` adds it to its key class ahead of the tasks already there. */
  lemma {:induction false} InsertStable(o: Order, x: Task, s: seq<Task>, k: SortKey)
    ensures Filter(Insert(o, x, s), HasKey(o, k)) ==
            (if KeyOf(o, x) == k then [x] else []) + Filter(s, HasKey(o, k))
    decreases |s|
  {
    var p := HasKey(o, k);
    var own := if KeyOf(o, x) == k then [x] else [];
    if |s| == 0 {
      FilterCons([x], p);
    } else if Precedes(o, s[0], x) {
      PrecedesDistinctKeys(o, s[0], x);
      InsertStable(o, x, s[1..], k);
      assert s == [s[0]] + s[1..];
      FilterPrepend(s[0], Insert(o, x, s[1..]), s[1..], p, own);
    } else {
      assert Insert(o, x, s) == [x] + s;
      FilterCons([x] + s, p);
      assert ([x] + s)[1..] == s;
    }
  }

  /** Python's `list.sort(key=…)` (with `reverse=True` for the done view):
      a stable sort, modelled as insertion sort from the back. */
  function Sort(o: Order, s: seq<Task>): (r: seq<Task>)
    ensures multiset(r) == multiset(s)
    ensures Sorted(o, r)
    ensures Stable(o, s, r)
    decreases |s|
  {
    if |s| == 0 then []
    else
      var rest := Sort(o, s[1..]);
      SortStableStep(o, s, rest);
      Insert(o, s[0], rest)
  }

  lemma SortStableStep(o: Order, s: seq<Task>, rest: seq<Task>)
    requires |s| > 0 && Stable(o, s[1..], rest)
    ensures multiset(s) == multiset(s[1..]) + multiset{s[0]}
    ensures Stable(o, s, Insert(o, s[0], rest))
  {
    assert s == [s[0]] + s[1..];
    forall k
      ensures Filter(Insert(o, s[0], rest), HasKey(o, k)) == Filter(s, HasKey(o, k))
    {
      InsertStable(o, s[0], rest, k);
      FilterCons(s, HasKey(o, k));
    }
  }

  // ------------------------------------------------------------- views

  /** `list_tasks(kind)`: "pending" and "done" keep the tasks of that status;
      pending and all are ordered by due date, undated last, then by creation
      stamp; done is ordered by completion stamp, latest first. Any other
      kind is neither filtered nor sorted. */
  function ListTasks(c: Collection, kind: string): (r: seq<Task>)
    ensures kind == "pending" ==>
      && multiset(r) == multiset(Filter(c.tasks, IsPending))
      && Sorted(ByDue, r) && Stable(ByDue, Filter(c.tasks, IsPending), r)
    ensures kind == "done" ==>
      && multiset(r) == multiset(Filter(c.tasks, IsDone))
      && Sorted(ByCompletionDesc, r) && Stable(ByCompletionDesc, Filter(c.tasks, IsDone), r)
    ensures kind == "all" ==>
      && multiset(r) == multiset(c.tasks)
      && Sorted(ByDue, r) && Stable(ByDue, c.tasks, r)
    ensures kind != "pending" && kind != "done" && kind != "all" ==> r == c.tasks
  {
    var shown :=
      if kind == "pending" then Filter(c.tasks, IsPending)
      else if kind == "done" then Filter(c.tasks, IsDone)
      else c.tasks;
    if kind == "pending" || kind == "all" then Sort(ByDue, shown)
    else if kind == "done" then Sort(ByCompletionDesc, shown)
    else shown
  }

  /** The pending and done views split the all view: together they hold
      every task exactly as often as it is stored, and no task is in both. */
  lemma ViewsPartition(c: Collection)
    ensures multiset(ListTasks(c, "pending")) + multiset(ListTasks(c, "done")) == multiset(ListTasks(c, "all"))
    ensures forall t :: t in ListTasks(c, "pending") ==> t !in ListTasks(c, "done")
  {
    var fp, fd := Filter(c.tasks, IsPending), Filter(c.tasks, IsDone);
    FilterPartition(c.tasks, IsPending, IsDone);
    var p, d := ListTasks(c, "pending"), ListTasks(c, "done");
    assert multiset(p) == multiset(fp);
    assert multiset(d) == multiset(fd);
    assert multiset(ListTasks(c, "all")) == multiset(c.tasks);
    ViewStatus(p, fp, true);
    ViewStatus(d, fd, false);
  }

  lemma ViewStatus(view: seq<Task>, shown: seq<Task>, pending: bool)
    requires multiset(view) == multiset(shown)
    requires forall t :: t in shown ==> t.completed != pending
    ensures forall t :: t in view ==> t.completed != pending
  {
    forall t | t in view
      ensures t.completed != pending
    {
      assert t in multiset(view);
      assert t in shown;
    }
  }

  /** In the due-date order, `a` belongs strictly ahead of `b` because of its
      due date: `a` has one and `b` has none, or both have one and `a`'s is
      earlier. */
  predicate DueFirst(a: Task, b: Task) {
    || (a.due.Some? && b.due.None?)
    || (&& a.due.Some? && a.due.value != "" && b.due.Some? && b.due.value != ""
        && Less(a.due.value, b.due.value))
  }

  lemma DueFirstPrecedes(a: Task, b: Task)
    requires DueFirst(a, b)
    ensures Precedes(ByDue, a, b)
  {
  }

  /** The pending and all views list dated tasks before undated ones and
      earlier due dates first; among tasks due the same day the older
      creation stamp comes first. */
  lemma DueViewOrder(c: Collection, kind: string)
    requires kind == "pending" || kind == "all"
    ensures var r := ListTasks(c, kind);
      && (forall i, j :: 0 <= i < |r| && 0 <= j < |r| && DueFirst(r[i], r[j]) ==> i < j)
      && (forall i, j :: 0 <= i < j < |r| && r[i].due == r[j].due ==> !Less(r[j].createdAt, r[i].createdAt))
  {
    SortedByDue(ListTasks(c, kind));
  }

  lemma SortedByDue(r: seq<Task>)
    requires Sorted(ByDue, r)
    ensures forall i, j :: 0 <= i < |r| && 0 <= j < |r| && DueFirst(r[i], r[j]) ==> i < j
    ensures forall i, j :: 0 <= i < j < |r| && r[i].due == r[j].due ==> !Less(r[j].createdAt, r[i].createdAt)
  {
    forall i, j | 0 <= i < |r| && 0 <= j < |r| && DueFirst(r[i], r[j])
      ensures i < j
    {
      DueFirstPrecedes(r[i], r[j]);
      PrecedesIrreflexive(ByDue, r[i]);
    }
    forall i, j | 0 <= i < j < |r| && r[i].due == r[j].due
      ensures !Less(r[j].createdAt, r[i].createdAt)
    {
      assert !Precedes(ByDue, r[j], r[i]);
      assert KeyOf(ByDue, r[j]).primary == KeyOf(ByDue, r[i]).primary;
    }
  }

  /** The done view lists later completion stamps first; a task with no
      stamp (or an empty one) comes after every task with a non-empty one. */
  lemma DoneViewOrder(c: Collection)
    ensures var r := ListTasks(c, "done");
      && (forall i, j :: 0 <= i < |r| && 0 <= j < |r| && Less(r[j].completedAt.GetOr(""), r[i].completedAt.GetOr("")) ==> i < j)
      && (forall i, j :: 0 <= i < j < |r| ==> !Less(r[i].completedAt.GetOr(""), r[j].completedAt.GetOr("")))
      && (forall i, j :: 0 <= i < j < |r| && r[i].completedAt.GetOr("") == "" ==> r[j].completedAt.GetOr("") == "")
  {
    var r := ListTasks(c, "done");
    forall i, j | 0 <= i < |r| && 0 <= j < |r| && Less(r[j].completedAt.GetOr(""), r[i].completedAt.GetOr(""))
      ensures i < j
    {
      assert Precedes(ByCompletionDesc, r[i], r[j]);
      PrecedesIrreflexive(ByCompletionDesc, r[i]);
    }
    forall i, j | 0 <= i < j < |r| && r[i].completedAt.GetOr("") == ""
      ensures r[j].completedAt.GetOr("") == ""
    {
      assert !Precedes(ByCompletionDesc, r[j], r[i]);
    }
  }
}

=== FILE: records.dfy ===
/** Stored task records and their normalisation into tasks
    (`Task.from_dict`), and the reverse direction (`asdict`). */
module Records {
  import opened Wrappers
  import opened Model
  import Decimal

  /** A JSON scalar as it can appear in a stored record field. */
  datatype Value = Null | Bool(b: bool) | Int(i: int) | Str(s: string)

  /** A task record as read from the data file. A field is `None` when its
      key is absent; `due` and `completedAt` are `None` both when absent and
      when `null`, which is what `dict.get` returns in either case. */
  datatype RawTask = RawTask(
    id: Option<Value>,
    title: Option<Value>,
    completed: Option<Value>,
    createdAt: Option<Value>,
    due: Option<string>,
    completedAt: Option<string>)

  /** Why a record cannot become a task: `int(d["id"])` or `d["title"]` fails. */
  datatype RecordError = MissingId | BadId | MissingTitle

  /** Python's `bool(v)`. */
  predicate Truthy(v: Value) {
    match v
    case Null => false
    case Bool(b) => b
    case Int(i) => i != 0
    case Str(s) => s != ""
  }

  /** Python's `int(v)`; `None` is the `TypeError`/`ValueError` case. */
  function IntOf(v: Value): (r: Option<int>)
    ensures v.Int? ==> r == Some(v.i)
    ensures v.Null? ==> r.None?
  {
    match v
    case Null => None
    case Bool(b) => Some(if b then 1 else 0)
    case Int(i) => Some(i)
    case Str(s) => Decimal.ParseInt(s)
  }

  /** Python's `str(v)`. */
  function StrOf(v: Value): (r: string)
    ensures v.Str? ==> r == v.s
    ensures !v.Str? ==> |r| > 0
  {
    match v
    case Null => "None"
    case Bool(b) => if b then "True" else "False"
    case Int(i) => Decimal.Show(i)
    case Str(s) => s
  }

  /** `Task.from_dict`: coerce id and title, default `completed` to false and
      a missing or falsy `created_at` to `now`, pass the nullable fields through. */
  function FromDict(d: RawTask, now: string): (r: Result<Task, RecordError>)
    ensures d.id.None? ==> r == Err(MissingId)
    ensures d.id.Some? && IntOf(d.id.value).None? ==> r == Err(BadId)
    ensures d.id.Some? && IntOf(d.id.value).Some? && d.title.None? ==> r == Err(MissingTitle)
    ensures r.Ok? <==> d.id.Some? && IntOf(d.id.value).Some? && d.title.Some?
    ensures r.Ok? ==>
      && Some(r.value.id) == IntOf(d.id.value)
      && r.value.title == StrOf(d.title.value)
      && (r.value.completed <==> d.completed.Some? && Truthy(d.completed.value))
      && r.value.due == d.due
      && r.value.completedAt == d.completedAt
    ensures r.Ok? && (d.createdAt.None? || !Truthy(d.createdAt.value)) ==> r.value.createdAt == now
    ensures r.Ok? && d.createdAt.Some? && Truthy(d.createdAt.value) ==>
      r.value.createdAt == StrOf(d.createdAt.value)
  {
    if d.id.None? then Err(MissingId)
    else if IntOf(d.id.value).None? then Err(BadId)
    else if d.title.None? then Err(MissingTitle)
    else
      var created := if d.createdAt.Some? && Truthy(d.createdAt.value) then StrOf(d.createdAt.value) else now;
      Ok(Task(
        IntOf(d.id.value).value,
        StrOf(d.title.value),
        d.completed.Some? && Truthy(d.completed.value),
        created,
        d.due,
        d.completedAt))
  }

  /** `asdict(task)`: the record written back to the data file. */
  function ToRaw(t: Task): (r: RawTask)
    ensures r.id == Some(Int(t.id)) && r.due == t.due && r.completedAt == t.completedAt
  {
    RawTask(Some(Int(t.id)), Some(Str(t.title)), Some(Bool(t.completed)),
            Some(Str(t.createdAt)), t.due, t.completedAt)
  }

  /** A task written out and read back is the same task, unless its creation
      stamp is empty, which reads back as falsy and is replaced by `now`. */
  lemma FromDictToRaw(t: Task, now: string)
    ensures t.createdAt != "" ==> FromDict(ToRaw(t), now) == Ok(t)
    ensures t.createdAt == "" ==> FromDict(ToRaw(t), now) == Ok(t.(createdAt := now))
  {
  }

  /** A record whose id is the text of a number is read as that number, as
      long as the number is within the digit limit; otherwise it is rejected. */
  lemma TextIdReadsAsNumber(d: RawTask, n: int, now: string)
    requires d.id == Some(Str(Decimal.Show(n))) && d.title.Some?
    ensures FromDict(d, now).Ok? <==> Decimal.Convertible(n)
    ensures FromDict(d, now).Ok? ==> FromDict(d, now).value.id == n
    ensures !Decimal.Convertible(n) ==> FromDict(d, now) == Err(BadId)
  {
    Decimal.ParseShow(n);
  }

  /** Normalising is idempotent: a normalised task written out reads back
      unchanged, whatever the clock says on the second read. */
  lemma NormaliseIdempotent(d: RawTask, now: string, later: string)
    requires now != "" && FromDict(d, now).Ok?
    ensures FromDict(ToRaw(FromDict(d, now).value), later) == FromDict(d, now)
  {
    var t := FromDict(d, now).value;
    assert t.createdAt != "";
    FromDictToRaw(t, later);
  }
}

=== FILE: scenarios.dfy ===
/** Whole-collection walk-throughs of the operations, as the CLI would run
    them one after another against the same data file. */
module Scenarios {
  import opened Wrappers
  import opened TextOrder
  import opened Model
  import opened Mutations
  import opened Statistics

  /** Add one task due in 2099, complete it, then reopen it. */
  lemma AddCompleteReopen(now: string, later: string, today: string)
    requires Less(today, "2099-01-01")
    ensures var added := AddTask(Empty(), "Buy milk", Some("2099-01-01"), now);
      var marked := MarkDone(added.after, {1}, later);
      var edited := EditTask(marked.after, 1, Edit(None, None, false, true));
      && added.value.id == 1
      && Stats(added.after, today) == Counts(1, 1, 0, 0)
      && |marked.value| == 1 && marked.value[0].completedAt == Some(later)
      && Stats(marked.after, today) == Counts(1, 0, 1, 0)
      && edited.value.Some? && edited.value.value.completedAt.None?
      && Stats(edited.after, today) == Counts(1, 1, 0, 0)
  {
    LessAsymmetric(today, "2099-01-01");
    var added := AddTask(Empty(), "Buy milk", Some("2099-01-01"), now);
    StatsAfterAdd(Empty(), "Buy milk", Some("2099-01-01"), now, today);
    var marked := MarkDone(added.after, {1}, later);
    StatsAfterMarkDone(added.after, {1}, later, today);
    assert Selected({1}, added.value);
    var t := marked.after.tasks[0];
    var edited := EditTask(marked.after, 1, Edit(None, None, false, true));
    assert edited.after.tasks == [Revise(t, Edit(None, None, false, true))];
  }

  /** Deleting an unknown id from an empty collection removes nothing. */
  lemma DeleteFromEmpty(ids: set<int>)
    ensures DeleteTasks(Empty(), ids) == Outcome(Empty(), 0)
  {
  }
}

=== FILE: seqs.dfy ===
/** Order-preserving filtering and mapping of sequences: the model of
    Python's list comprehensions `[t for t in ts if p(t)]` and `[f(t) for t in ts]`. */
module Seqs {

  /** `a` is `b` with some elements dropped, the rest in their original order. */
  predicate IsSubsequence<T(==)>(a: seq<T>, b: seq<T>)
    decreases |b|
  {
    || |a| == 0
    || (&& |b| > 0
        && ((a[0] == b[0] && IsSubsequence(a[1..], b[1..])) || IsSubsequence(a, b[1..])))
  }

  lemma {:induction false} SubsequenceMembers<T>(a: seq<T>, b: seq<T>)
    requires IsSubsequence(a, b)
    ensures forall x :: x in a ==> x in b
    decreases |b|
  {
    if |a| > 0 {
      if a[0] == b[0] && IsSubsequence(a[1..], b[1..]) {
        SubsequenceMembers(a[1..], b[1..]);
        assert forall x :: x in a ==> x == a[0] || x in a[1..];
      } else {
        SubsequenceMembers(a, b[1..]);
      }
    }
  }

  /** The elements of `s` that satisfy `p`, in their order in `s`. */
  function Filter<T(==, !new)>(s: seq<T>, p: T -> bool): (r: seq<T>)
    ensures |r| <= |s|
    ensures forall x :: x in r <==> x in s && p(x)
    ensures IsSubsequence(r, s)
    decreases |s|
  {
    if |s| == 0 then []
    else
      assert s == [s[0]] + s[1..];
      if p(s[0]) then [s[0]] + Filter(s[1..], p) else Filter(s[1..], p)
  }

  /** `f` applied to every element of `s`, in order. */
  function Map<T, U>(s: seq<T>, f: T -> U): (r: seq<U>)
    ensures |r| == |s|
    ensures forall i :: 0 <= i < |s| ==> r[i] == f(s[i])
    decreases |s|
  {
    if |s| == 0 then [] else [f(s[0])] + Map(s[1..], f)
  }

  lemma {:induction false} FilterAppend<T(!new)>(a: seq<T>, b: seq<T>, p: T -> bool)
    ensures Filter(a + b, p) == Filter(a, p) + Filter(b, p)
    decreases |a|
  {
    if |a| > 0 {
      assert (a + b)[0] == a[0];
      assert (a + b)[1..] == a[1..] + b;
      FilterAppend(a[1..], b, p);
    } else {
      assert a + b == b;
    }
  }

  /** Filtering by `p` and by its negation splits `s` into two parts that
      together hold every element exactly as often as `s` does. */
  lemma {:induction false} FilterPartition<T(!new)>(s: seq<T>, p: T -> bool, q: T -> bool)
    requires forall x :: q(x) == !p(x)
    ensures multiset(Filter(s, p)) + multiset(Filter(s, q)) == multiset(s)
    ensures |Filter(s, p)| + |Filter(s, q)| == |s|
    decreases |s|
  {
    if |s| > 0 {
      var x, rest := s[0], s[1..];
      var fp, fq := Filter(rest, p), Filter(rest, q);
      FilterPartition(rest, p, q);
      assert multiset(s) == multiset{x} + multiset(rest) by {
        assert s == [x] + rest;
      }
      if p(x) {
        assert Filter(s, p) == [x] + fp && Filter(s, q) == fq;
        assert multiset([x] + fp) == multiset{x} + multiset(fp);
      } else {
        assert Filter(s, p) == fp && Filter(s, q) == [x] + fq;
        assert multiset([x] + fq) == multiset{x} + multiset(fq);
      }
    }
  }

  /** A weaker condition keeps at least as many elements. */
  lemma {:induction false} FilterWeaker<T(!new)>(s: seq<T>, p: T -> bool, q: T -> bool)
    requires forall x :: p(x) ==> q(x)
    ensures |Filter(s, p)| <= |Filter(s, q)|
    decreases |s|
  {
    if |s| > 0 {
      FilterWeaker(s[1..], p, q);
    }
  }

  /** Each element passing `p` is kept exactly as often as it occurs in
      `s`; an element failing `p` is not kept at all. */
  lemma {:induction false} FilterMultiplicity<T(!new)>(s: seq<T>, p: T -> bool, x: T)
    ensures multiset(Filter(s, p))[x] == (if p(x) then multiset(s)[x] else 0)
    decreases |s|
  {
    if |s| > 0 {
      var rest := Filter(s[1..], p);
      FilterMultiplicity(s[1..], p, x);
      FilterCons(s, p);
      assert s == [s[0]] + s[1..];
      assert multiset(s) == multiset([s[0]]) + multiset(s[1..]);
      if p(s[0]) {
        assert Filter(s, p) == [s[0]] + rest;
        assert multiset(Filter(s, p)) == multiset([s[0]]) + multiset(rest);
      } else {
        assert Filter(s, p) == rest;
      }
    }
  }

  /** Filtering twice is filtering once by both conditions. */
  lemma {:induction false} FilterTwice<T(!new)>(s: seq<T>, p: T -> bool, q: T -> bool, both: T -> bool)
    requires forall x :: both(x) == (p(x) && q(x))
    ensures Filter(Filter(s, p), q) == Filter(s, both)
    decreases |s|
  {
    if |s| > 0 {
      FilterTwice(s[1..], p, q, both);
      FilterCons(s, p);
      FilterCons(s, both);
      if p(s[0]) {
        FilterCons(Filter(s, p), q);
        assert Filter(s, p)[1..] == Filter(s[1..], p);
      }
    }
  }

  /** Filtering a sequence none of whose elements passes `p` leaves nothing. */
  lemma {:induction false} FilterKeepsNone<T(!new)>(s: seq<T>, p: T -> bool)
    requires forall x :: x in s ==> !p(x)
    ensures Filter(s, p) == []
    decreases |s|
  {
    if |s| > 0 {
      FilterKeepsNone(s[1..], p);
    }
  }

  /** One step of the filter: the head goes first if it passes. */
  /** Putting `a` in front of two lists whose filters differ by a prefix
      `own` keeps that difference, when `a` passes only if `own` is empty. */
  lemma FilterPrepend<T(!new)>(a: T, t: seq<T>, u: seq<T>, p: T -> bool, own: seq<T>)
    requires Filter(t, p) == own + Filter(u, p)
    requires own == [] || !p(a)
    ensures Filter([a] + t, p) == own + Filter([a] + u, p)
  {
    FilterCons([a] + t, p);
    FilterCons([a] + u, p);
    assert ([a] + t)[1..] == t;
    assert ([a] + u)[1..] == u;
  }

  lemma FilterCons<T(!new)>(s: seq<T>, p: T -> bool)
    requires |s| > 0
    ensures Filter(s, p) == (if p(s[0]) then [s[0]] else []) + Filter(s[1..], p)
  {
  }
}

=== FILE: stats.dfy ===
/** `stats`: the counts the CLI and the web page show. `today` is the
    `YYYY-MM-DD` date the clock would give. */
module Statistics {
  import opened Wrappers
  import opened TextOrder
  import opened Model
  import opened Seqs
  import Mutations

  datatype Counts = Counts(total: nat, pending: nat, done: nat, overdue: nat)

  /** Has a non-empty due date strictly before `today`. */
  predicate DueBefore(today: string, t: Task) {
    t.due.Some? && t.due.value != "" && Less(t.due.value, today)
  }

  function DueBeforeOn(today: string): (p: Task -> bool) {
    t => DueBefore(today, t)
  }

  /** Pending, with a non-empty due date strictly before `today`. */
  predicate IsOverdue(today: string, t: Task) {
    !t.completed && DueBefore(today, t)
  }

  function OverdueOn(today: string): (p: Task -> bool) {
    t => IsOverdue(today, t)
  }

  /** `stats`: total, done, pending as the difference, and overdue; pending
      is exactly the number of tasks not completed, and overdue is the
      number of those pending tasks whose due date is before `today`. */
  function Stats(c: Collection, today: string): (r: Counts)
    ensures r.total == |c.tasks|
    ensures r.done == |Filter(c.tasks, IsDone)|
    ensures r.pending == |Filter(c.tasks, IsPending)|
    ensures r.pending + r.done == r.total
    ensures r.overdue == |Filter(Filter(c.tasks, IsPending), DueBeforeOn(today))|
    ensures r.overdue <= r.pending
    ensures r.overdue == 0 <==> forall t :: t in c.tasks ==> !IsOverdue(today, t)
  {
    var done := |Filter(c.tasks, IsDone)|;
    FilterPartition(c.tasks, IsPending, IsDone);
    FilterWeaker(c.tasks, OverdueOn(today), IsPending);
    NoneOverdue(c.tasks, today);
    FilterTwice(c.tasks, IsPending, DueBeforeOn(today), OverdueOn(today));
    Counts(|c.tasks|, |c.tasks| - done, done, |Filter(c.tasks, OverdueOn(today))|)
  }

  /** Adding a task counts one more in total and pending, and one more
      overdue exactly when its due date is non-empty and before `today`; a
      task with no due date, or due today, is not overdue. */
  lemma StatsAfterAdd(c: Collection, title: string, due: Option<string>, now: string, today: string)
    ensures var before := Stats(c, today);
      var after := Stats(Mutations.AddTask(c, title, due, now).after, today);
      && after.total == before.total + 1
      && after.pending == before.pending + 1
      && after.done == before.done
      && after.overdue == before.overdue + (if due.Some? && due.value != "" && Less(due.value, today) then 1 else 0)
  {
    var t := Mutations.AddTask(c, title, due, now).value;
    FilterAppend(c.tasks, [t], IsDone);
    FilterAppend(c.tasks, [t], IsPending);
    FilterAppend(c.tasks, [t], OverdueOn(today));
    if due.Some? && due.value == today {
      LessIrreflexive(today);
    }
  }

  /** Marking done moves exactly the reported tasks from pending to done. */
  lemma StatsAfterMarkDone(c: Collection, ids: set<int>, now: string, today: string)
    ensures var before := Stats(c, today);
      var r := Mutations.MarkDone(c, ids, now);
      var after := Stats(r.after, today);
      && after.total == before.total
      && after.done == before.done + |r.value|
      && after.pending + |r.value| == before.pending
  {
    MarkEachCountsDone(c.tasks, ids, now);
  }

  lemma {:induction false} MarkEachCountsDone(tasks: seq<Task>, ids: set<int>, now: string)
    ensures |Filter(Mutations.MarkEach(tasks, ids, now).0, IsDone)|
         == |Filter(tasks, IsDone)| + |Filter(tasks, Mutations.SelectedBy(ids))|
    decreases |tasks|
  {
    if |tasks| > 0 {
      MarkEachCountsDone(tasks[1..], ids, now);
      var r := Mutations.MarkEach(tasks, ids, now);
      var rest := Mutations.MarkEach(tasks[1..], ids, now);
      assert r.0 == [r.0[0]] + rest.0;
    }
  }

  lemma NoneOverdue(tasks: seq<Task>, today: string)
    ensures |Filter(tasks, OverdueOn(today))| == 0 <==> forall t :: t in tasks ==> !IsOverdue(today, t)
  {
    var f := Filter(tasks, OverdueOn(today));
    if |f| > 0 {
      assert f[0] in f;
    } else {
      assert forall t :: t in tasks && IsOverdue(today, t) ==> t in f;
    }
  }
}

=== FILE: store.dfy ===
/** The data file as a value: `load_data` turns its contents into a
    normalised collection or a fatal error, `save_data` writes a collection
    back. Reading and writing the file itself is not modelled. */
module Store {
  import opened Wrappers
  import opened Model
  import opened Records
  import Seqs

  /** What reading the data file can find. `Document` is a JSON object with
      its optional `next_id` and `tasks` keys. */
  datatype StoredFile =
    | Absent
    | Unparseable
    | NotAnObject
    | Document(nextId: Option<int>, records: Option<seq<RawTask>>)

  /** The fatal outcomes of a load: the process must not go on with the data. */
  datatype LoadError = ParseFailure | CorruptRoot | CorruptRecord(index: nat, reason: RecordError)

  /** Normalise every record; the first one that cannot become a task aborts. */
  function DecodeAll(rs: seq<RawTask>, now: string): (r: Result<seq<Task>, (nat, RecordError)>)
    ensures r.Ok? <==> forall i :: 0 <= i < |rs| ==> FromDict(rs[i], now).Ok?
    ensures r.Ok? ==> |r.value| == |rs| && forall i :: 0 <= i < |rs| ==> FromDict(rs[i], now) == Ok(r.value[i])
    ensures r.Err? ==>
      && r.error.0 < |rs|
      && FromDict(rs[r.error.0], now) == Err(r.error.1)
      && forall i :: 0 <= i < r.error.0 ==> FromDict(rs[i], now).Ok?
    decreases |rs|
  {
    if |rs| == 0 then Ok([])
    else
      match FromDict(rs[0], now)
      case Err(e) => Err((0, e))
      case Ok(t) =>
        match DecodeAll(rs[1..], now)
        case Err(e) => Err((e.0 + 1, e.1))
        case Ok(ts) => Ok([t] + ts)
  }

  /** `load_data`: an absent file is the first-run empty collection; missing
      keys default to `next_id = 1` and no tasks; every record is normalised. */
  function Load(f: StoredFile, now: string): (r: Result<Collection, LoadError>)
    ensures f.Absent? ==> r == Ok(Empty())
    ensures f.Unparseable? ==> r == Err(ParseFailure)
    ensures f.NotAnObject? ==> r == Err(CorruptRoot)
    ensures f.Document? ==>
      (r.Ok? <==> f.records.None? || forall i :: 0 <= i < |f.records.value| ==> FromDict(f.records.value[i], now).Ok?)
    ensures f.Document? && r.Err? ==>
      && f.records.Some? && r.error.CorruptRecord?
      && r.error.index < |f.records.value|
      && FromDict(f.records.value[r.error.index], now) == Err(r.error.reason)
      && forall i :: 0 <= i < r.error.index ==> FromDict(f.records.value[i], now).Ok?
    ensures f.Document? && r.Ok? ==>
      && r.value.nextId == f.nextId.GetOr(1)
      && (f.records.None? ==> r.value.tasks == [])
      && (f.records.Some? ==>
            && |r.value.tasks| == |f.records.value|
            && forall i :: 0 <= i < |r.value.tasks| ==> FromDict(f.records.value[i], now) == Ok(r.value.tasks[i]))
  {
    match f
    case Absent => Ok(Empty())
    case Unparseable => Err(ParseFailure)
    case NotAnObject => Err(CorruptRoot)
    case Document(next, records) =>
      match DecodeAll(records.GetOr([]), now)
      case Err(e) => Err(CorruptRecord(e.0, e.1))
      case Ok(ts) => Ok(Collection(next.GetOr(1), ts))
  }

  /** `save_data`: the whole collection, every task as its record. */
  function Save(c: Collection): (f: StoredFile)
    ensures f.Document? && f.nextId == Some(c.nextId) && f.records.Some?
    ensures |f.records.value| == |c.tasks|
    ensures forall i :: 0 <= i < |c.tasks| ==> f.records.value[i] == ToRaw(c.tasks[i])
  {
    Document(Some(c.nextId), Some(Seqs.Map(c.tasks, ToRaw)))
  }

  /** Every task carries a creation stamp; loading always establishes this
      when the clock reading is not empty. */
  predicate Normalised(c: Collection) {
    forall i :: 0 <= i < |c.tasks| ==> c.tasks[i].createdAt != ""
  }

  /** Saving and loading again gives back the same collection. */
  lemma LoadSave(c: Collection, now: string)
    requires Normalised(c)
    ensures Load(Save(c), now) == Ok(c)
  {
    var f := Save(c);
    forall i | 0 <= i < |c.tasks|
      ensures FromDict(f.records.value[i], now) == Ok(c.tasks[i])
    {
      FromDictToRaw(c.tasks[i], now);
    }
    var r := Load(f, now);
    assert r.Ok?;
    assert r.value.tasks == c.tasks;
  }

  /** A loaded collection is normalised, so `save_data(load_data())` is a
      no-op on what the next load sees. */
  lemma LoadSaveLoad(f: StoredFile, now: string, later: string)
    requires now != "" && Load(f, now).Ok?
    ensures Normalised(Load(f, now).value)
    ensures Load(Save(Load(f, now).value), later) == Load(f, now)
  {
    var c := Load(f, now).value;
    forall i | 0 <= i < |c.tasks|
      ensures c.tasks[i].createdAt != ""
    {
      assert FromDict(f.records.value[i], now) == Ok(c.tasks[i]);
    }
    LoadSave(c, later);
  }
}

=== FILE: text_order.dfy ===
/** The ordering Python's `<` gives two `str` values: code points compared
    left to right, and a proper prefix sorts first. Due dates, creation and
    completion timestamps are all compared with it. */
module TextOrder {

  predicate Less(a: string, b: string)
    decreases |a|
  {
    if |a| == 0 then |b| > 0
    else if |b| == 0 then false
    else if a[0] != b[0] then a[0] < b[0]
    else Less(a[1..], b[1..])
  }

  lemma {:induction false} LessIrreflexive(a: string)
    ensures !Less(a, a)
    decreases |a|
  {
    if |a| > 0 {
      LessIrreflexive(a[1..]);
    }
  }

  lemma {:induction false} LessTransitive(a: string, b: string, c: string)
    requires Less(a, b) && Less(b, c)
    ensures Less(a, c)
    decreases |a|
  {
    if |a| > 0 && a[0] == b[0] && b[0] == c[0] {
      LessTransitive(a[1..], b[1..], c[1..]);
    }
  }

  /** Any two strings are ordered one way or the other, or are equal. */
  lemma {:induction false} LessTrichotomy(a: string, b: string)
    ensures Less(a, b) || a == b || Less(b, a)
    decreases |a|
  {
    if |a| > 0 && |b| > 0 && a[0] == b[0] {
      LessTrichotomy(a[1..], b[1..]);
      if a[1..] == b[1..] {
        assert a == [a[0]] + a[1..] && b == [b[0]] + b[1..];
      }
    }
  }

  lemma {:induction false} LessAsymmetric(a: string, b: string)
    requires Less(a, b)
    ensures !Less(b, a)
    decreases |a|
  {
    if |a| > 0 && a[0] == b[0] {
      LessAsymmetric(a[1..], b[1..]);
    }
  }

  /** Comparing two concatenations whose first parts have the same length
      compares the first parts, and the second parts only on a tie. */
  lemma {:induction false} LessConcat(x1: string, x2: string, y1: string, y2: string)
    requires |x1| == |y1|
    ensures Less(x1 + x2, y1 + y2) <==> Less(x1, y1) || (x1 == y1 && Less(x2, y2))
    decreases |x1|
  {
    if |x1| > 0 {
      assert (x1 + x2)[0] == x1[0] && (y1 + y2)[0] == y1[0];
      assert (x1 + x2)[1..] == x1[1..] + x2;
      assert (y1 + y2)[1..] == y1[1..] + y2;
      LessConcat(x1[1..], x2, y1[1..], y2);
      if x1[0] == y1[0] {
        assert x1 == y1 <==> x1[1..] == y1[1..] by {
          assert x1 == [x1[0]] + x1[1..] && y1 == [y1[0]] + y1[1..];
        }
      }
    } else {
      assert x1 + x2 == x2 && y1 + y2 == y2;
    }
  }
}

=== FILE: wrappers.dfy ===
/** Optional values and results with an error value, used for the nullable
    fields of a task and for the error outcomes of the store and of `clear`. */
module Wrappers {

  /** Python's `None` or a present value. */
  datatype Option<+T> = None | Some(value: T) {

    /** The present value, or `default` when absent (Python's `x or default`
        only for values that are never falsy). */
    function GetOr(default: T): T {
      match this
      case Some(v) => v
      case None => default
    }
  }

  /** The outcome of an operation that may fail with an error value. */
  datatype Result<+T, +E> = Ok(value: T) | Err(error: E)
}
